=== FILE: README.md ===
# Frozen Bubble entity engine and player controller in Dafny

This project models the timer-driven core of a browser bubble-shooter game:

- the animated, movable element `AnimatedImage_Tool` (`js/tools/animated_image.js`). It covers
  - the sprite-sheet frame animator (`animate`, `animateFrame`, `stopAnimation`);
  - the stepped movement towards a target (`moveTo`, `moveLoop`, `stop`, `setPos`, `getX`, `getY`);
  - the rectangle and circle collision tests (`checkPointInSquare`, `getDistanceTwoPoints`, `checkCollision`);
- the player controller `Player_Controller` (`public/js/controllers/player.js`). It covers
  - the penguin's left/right/centre movement;
  - the shooter's bounded rotation;
  - shooting;
  - the `win`/`gameOver` latch;
  - the key listeners;
  - `getColorFromType`.

Each closure's private variables become an immutable datatype. Each timer callback becomes one call of a pure step function. A scheduled callback is a `tickPending` flag. Calls on collaborators (the penguin's `animate`, the shooter's `rotate`, bubble movements) are recorded as events. The `config` values are a parameter record.

Modules, one per file:

| file | module | models |
|---|---|---|
| wrappers.dfy | Wrappers | `Option` for `null`/`undefined`, `Result` for thrown errors |
| geometry.dfy | Geometry | points, squares, `checkPointInSquare`, the squared `getDistanceTwoPoints` |
| collision.dfy | Collision | `checkCollision` in rectangle and circle mode |
| animation.dfy | Animation | `animate`, `animateFrame`, `stopAnimation`, and runs of timer ticks |
| motion.dfy | Motion | `moveTo`, `moveLoop`, `stop`, `setPos`, `getX`, `getY`, and runs of ticks |
| player.dfy | Player | `Player_Controller` and `getColorFromType` |

Behaviour of the code as written, which the model keeps:

- **Circle mode never turns back.** `animateFrame` only sets `rightWay := false` on reaching `to`. After that the frame index runs downward for ever (`Animation.CircleTurnsOnce`). The comment on `animationType` (js/tools/animated_image.js:39) says circle mode changes the way of the animation after the last image. The code changes it once and never back.
- **The first frame shown is `from ± 1`, not `from`.** `animate` runs one tick at once. `animate({from: 1, to: 5})` shows 2, 3, 4, 5 and then stops (`Animation.AnimateOnceCompletes`). `animate({from: 5, to: 1})` shows 4, 3, 2, 1 (`Animation.AnimateOnceBackwardCompletes`).
- **`from == to` never stops.** The direction test is `from < to`, so the animation runs backward away from `to` (`Animation.AnimateEqualBoundsNeverStops`).
- **A missing `from` with `to` given runs backward.** In JavaScript, `undefined < to` is false.
- **The stored timer handle is never cleared when an animation ends by itself.** A later `stopAnimation` therefore still resets the frame and drops the callback. The model keeps `handleHeld` and `tickPending` apart for this reason (`Animation.AnimateFrame`, `Animation.AnimateOnceCompletes`).
- **The end callback is only replaced when a new one is passed.** It is not cleared after it fires.
- **The move end test runs on the position after the step.** It fires once the target is within two steps on both axes. Moving from (0, 0) to (100, 0) in steps of 10 snaps onto the target on the 8th `moveLoop` call, not the 10th that 100 / 10 suggests. The first call runs inside `moveTo`, not on a timer (`Motion.HundredPixelsInEightTicks`).
- **The per-step check also runs on the final tick.**
- **Nothing rejects a step length `<= 0` or an inconsistent `from`/`to`.**
- **The rectangle test only checks the other element's corners.** It is order-dependent (`Collision.RectangleCollisionOrderDependent`).
- **The circle centre is placed at `(x - r, y - r)`.** That is up and to the left of the box. It agrees with box-centred circles only when both widths are equal (`Collision.CircleCollisionEqualWidths`, `Collision.CircleCollisionUnequalWidths`).
- **`stop()` before any `moveTo` fails.** It reads a field of a null `moveInfo`.
- **The `keyup` listener has no stopped test.** After `win`/`gameOver`, releasing a key held when the game stopped still plays that side's centre animation, replacing the end-of-game one. With no turn in progress it requests nothing (`Player.KeyReleaseAfterEnd`).

## Model

| member | source | states |
|---|---|---|
| Geometry.DistanceSquared | js/tools/animated_image.js:216-221 | the squared distance of two points is non-negative and zero exactly when the points coincide |
| Geometry.DistanceSymmetric | js/tools/animated_image.js:216-221 | the distance (and every root of it) does not depend on the order of the points |
| Geometry.DistanceTranslation | js/tools/animated_image.js:216-221 | shifting both points by the same offset keeps their distance |
| Collision.CheckCollision | js/tools/animated_image.js:298-338 | with type "circle" the circle test decides; otherwise a hit iff one of the other box's four corners lies in this box, bounds inclusive |
| Collision.RectangleCollisionByAxes | js/tools/animated_image.js:194-200 | the rectangle test holds iff a vertical edge of the other box lies in this box's x extent and a horizontal edge in its y extent |
| Collision.NestedBoxCollides | js/tools/animated_image.js:317-337 | a box nested inside this one is a hit |
| Collision.DisjointBoxesDoNotCollide | js/tools/animated_image.js:317-337 | boxes separated by a gap on either axis are not a hit |
| Collision.RectangleCollisionOrderDependent | js/tools/animated_image.js:328-337 | a large box finds a small inner box, the small box does not find the large one |
| Collision.CircleCollisionReachesCentre | js/tools/animated_image.js:299-313 | for a whole-number centre distance d, the circle test holds iff the sum of the radii reaches d |
| Collision.TouchingCirclesCollide | js/tools/animated_image.js:313 | circles whose radii sum exactly to the centre distance collide; one pixel further apart they do not |
| Collision.CircleCollisionSymmetric | js/tools/animated_image.js:302-313 | the circle test gives the same answer with the two elements swapped |
| Collision.CircleCollisionEqualWidths | js/tools/animated_image.js:305-311 | for equal widths the shifted centres give the same answer as circles centred in their boxes |
| Collision.CircleCollisionUnequalWidths | js/tools/animated_image.js:305-311 | for unequal widths the shifted centres can report a hit for box-centred circles that lie apart: one concrete pair of boxes shows it |
| Animation.Initial | js/tools/animated_image.js:23-37 | a new animator holds no timer handle and no scheduled tick; it stands on the start position, runs forward, ends at the image count and has no callback |
| Animation.AnimateFrame | js/tools/animated_image.js:66-102 | the frame moves by exactly ±1, except that a loop reaching `to` always rewinds to `from`; a circle reaching `to` always turns backward; only a once-only animation reaching `to` stops, and only then is the callback invoked; only circle mode changes direction, and only to backward; a timer handle is stored iff one was before or a new tick is scheduled, so the handle outlives a natural end |
| Animation.StopAnimation | js/tools/animated_image.js:492-502 | with no stored handle nothing changes; otherwise the frame returns to the start position, the callback is dropped and no tick remains |
| Animation.Configure | js/tools/animated_image.js:400-424 | `to` defaults to the image count; forward iff `to` is absent or `from < to`; frame and `from` are set when `from` is given, otherwise the frame is what `stopAnimation` left and `from` is kept; the callback is set when one is given, otherwise it is what `stopAnimation` left |
| Animation.Animate | js/tools/animated_image.js:400-428 | the first frame shown is the configured start moved one step in the configured direction, except that a loop whose step lands on `to` shows `from` instead |
| Animation.Run | js/tools/animated_image.js:95-97 | ticks never change the range, type or callback of an animation, never drop a stored handle, and keep the handle invariant |
| Animation.OnceRunsToEnd | js/tools/animated_image.js:70-101 | a forward once-only animation below `to` runs exactly `to - pos` ticks, shows every frame up to `to`, stops there and fires its callback once |
| Animation.AnimateOnceCompletes | js/tools/animated_image.js:403-427 | `animate({from: f, to: t})` with f < t shows f+1 … t over `t - f` ticks in all, then stops and fires the callback in effect exactly once; when more than one frame is shown the timer handle is still stored, so a later `stopAnimation` returns to the start image |
| Animation.OnceRunsDownToEnd | js/tools/animated_image.js:70-101 | a backward once-only animation above `to` runs exactly `pos - to` ticks, shows every frame down to `to`, stops there and fires its callback once |
| Animation.AnimateOnceBackwardCompletes | js/tools/animated_image.js:403-427 | `animate({from: f, to: t})` with f > t shows f-1 … t over `f - t` ticks in all, then stops and fires the callback in effect exactly once |
| Animation.BackwardBelowEndNeverStops | js/tools/animated_image.js:70-96 | a backward animation at or below `to` moves down one frame a tick for ever, without a callback |
| Animation.AnimateEqualBoundsNeverStops | js/tools/animated_image.js:416 | `animate` with `from == to` never stops and never fires a callback |
| Animation.CircleTurnsOnce | js/tools/animated_image.js:77-81 | a circular animation reaches `to`, turns backward, and from then on runs backward for ever without a callback |
| Animation.LoopCycle | js/tools/animated_image.js:83-85 | `to - pos` ticks of a forward looping animation bring it back to `from` with no callback |
| Animation.LoopCycleBackward | js/tools/animated_image.js:83-85 | `pos - to` ticks of a backward looping animation bring it back to `from` with no callback |
| Animation.LoopPeriodic | js/tools/animated_image.js:83-85 | after k full cycles a looping animation, forward or backward, is in exactly the state it started in |
| Animation.RepeatingNeverEnds | js/tools/animated_image.js:77-96 | loop and circle animations always schedule another tick and never fire the callback |
| Animation.StopAnimationIdempotent | js/tools/animated_image.js:492-502 | stopping twice equals stopping once, and no tick follows a stop |
| Motion.Initial | js/tools/animated_image.js:21-44 | a new element stands at (0, 0) with no movement (`moveInfo` null, `movingTo` false) and no timer |
| Motion.SetPos | js/tools/animated_image.js:360-365 | `getX`/`getY` return the arguments of the last `setPos`; nothing else changes |
| Motion.GetAfterSetPos | js/tools/animated_image.js:251-264 | a later `setPos` overrides an earlier one |
| Motion.StepToward | js/tools/animated_image.js:135-145 | a non-negative step never moves away from a target that lies ahead on that axis |
| Motion.MoveLoop | js/tools/animated_image.js:124-171 | the tick ends iff the stepped position is within two steps of the target on both axes; then the position is exactly the target and the end callback runs; otherwise one more tick is scheduled; the step check runs iff present and moving |
| Motion.MoveTo | js/tools/animated_image.js:466-485 | the new movement replaces any earlier one, the element is moving, and the step check runs on the first tick iff one was given |
| Motion.Stop | js/tools/animated_image.js:446-449 | fails iff no movement was ever set; otherwise clears `movingTo` and the tick, position unchanged |
| Motion.StopIdempotent | js/tools/animated_image.js:446-449 | stopping twice equals stopping once |
| Motion.MoveRun | js/tools/animated_image.js:160 | ticks never change the movement's target or the moving flag |
| Motion.HorizontalStillMoving | js/tools/animated_image.js:147-161 | a level move farther than n+2 steps is still moving after n ticks, one step closer per tick, with no end callback |
| Motion.HorizontalArrives | js/tools/animated_image.js:147-161 | a level move within n+2 steps ends exactly on the target within n ticks and fires the end callback iff present |
| Motion.HundredPixelsInEightTicks | js/tools/animated_image.js:147-161 | (0,0) to (100,0) in steps of 10 ends exactly on the target on the 8th `moveLoop` call |
| Player.MoveToLeft | public/js/controllers/player.js:44-53 | the movement becomes left; the left animation is requested iff it was not already left |
| Player.MoveToRight | public/js/controllers/player.js:62-70 | the movement becomes right; the right animation (to the last image) is requested iff it was not already right |
| Player.MoveToSideIdempotent | public/js/controllers/player.js:44-70 | a repeated turn to the same side is a no-op |
| Player.CentreFromRightPlaysBack | public/js/controllers/player.js:79-83 | from the right, the requested animation plays the right-hand frames backward once, down to `rightAnimationFrom - 1`, and stops there |
| Player.CentreFromLeftPlaysBack | public/js/controllers/player.js:85-89 | from the left, the requested animation plays the left-hand frames backward once, down to `leftAnimationFrom`, and stops there |
| Player.MoveToCenter | public/js/controllers/player.js:78-92 | the movement always ends null; one return animation is requested iff the movement was left or right |
| Player.RotateObserver | public/js/controllers/player.js:99-116 | left turns the angle down by 1 unless at the left limit, right up by 1 unless at the right limit, null leaves it; a rotate call iff the angle changed; the timer is re-armed |
| Player.RotateObserverInBounds | public/js/controllers/player.js:99-112 | a tick keeps the angle within its limits |
| Player.AddNewBubbleToChamber | public/js/controllers/player.js:154-178 | the chamber bubble becomes the loaded one and a new one fills the chamber |
| Player.ChargeChamberBall | public/js/controllers/player.js:185-196 | an empty chamber is filled and the shooter emptied, nothing else in the controller changes; a full chamber leaves the controller unchanged; either way the chamber bubble is sent to the shooter |
| Player.ChamberBubbleIsFiredNext | public/js/controllers/player.js:124-178 | a shot sends the chamber bubble to the shooter; before it arrives another shot fires nothing; after it arrives the next shot fires it at the current angle |
| Player.Shoot | public/js/controllers/player.js:124-147 | a bubble is fired at the current angle iff one is loaded after charging; the shooter ends empty, the movement null, the shoot animation requested last |
| Player.Win | public/js/controllers/player.js:235-254 | acts only when not stopped: stops, clears the timers, loops the winner animation; always ends stopped |
| Player.GameOver | public/js/controllers/player.js:260-278 | acts only when not stopped: stops, clears the timers, plays the loser animation once; always ends stopped |
| Player.Step | public/js/controllers/player.js:312-338 | a rotation tick with the timer cleared does nothing; a key release always nulls the movement, stopped or not, and requests one animation iff a turn was in progress; an arriving bubble becomes the loaded one |
| Player.KeyReleaseAfterEnd | public/js/controllers/player.js:336-338 | after `win` or `gameOver`, releasing a key still requests the left or right return animation when that turn was in progress, and nothing otherwise; the game stays stopped |
| Player.KeyDown | public/js/controllers/player.js:312-334 | a stopped game or a done page ignores the key; no key changes the stopped flag, the rotation timer or the angle |
| Player.Init | public/js/controllers/player.js:286-305 | the controller starts upright, not stopped, with no turn, an empty shooter and the rotation timer armed; the first bubble fills the chamber and is sent on its way to the shooter |
| Player.RunKeepsRotationInBounds | public/js/controllers/player.js:99-112 | any sequence of inputs keeps the angle within its limits |
| Player.RotationAlwaysInBounds | public/js/controllers/player.js:25-116 | from `init`, with limits on either side of 0, the angle always stays within them |
| Player.StoppedIsFinal | public/js/controllers/player.js:235-278 | a stopped game stays stopped and its cleared rotation timer is never re-armed |
| Player.WinnerAnimationNeverEnds | public/js/controllers/player.js:248-252 | the winner animation requested by `win` never ends and never fires a callback |
| Player.EndCallsLatch | public/js/controllers/player.js:235-278 | any sequence of `win`/`gameOver` calls does exactly what its first call does |
| Player.StoppedEndCallsDoNothing | public/js/controllers/player.js:235-278 | once stopped, `win`/`gameOver` calls change nothing and request nothing |
| Player.ColorFromType | public/js/controllers/player.js:343-361 | 0..7 map to BLACK, BLUE, GREEN, ORANGE, PURPLE, RED, WHITE, YELLOW in that order; anything else is undefined |
| Player.ColorFromTypeInjective | public/js/controllers/player.js:343-361 | different type codes have different colour names |

## Left out

- Rendering: `init`, `setAnimationImage`, `show`, `hide`, `setText`, `setClass` and `rotate` on the element act on the page and are not modelled. The player records its calls of them as events.
- Timers: each `setTimeout` callback is one explicit step. Intervals (`timeInterval`, `loopTime`, `rotationSpeedLoop`) and wall-clock time are not modelled.
- The per-call interval override of `animate` (js/tools/animated_image.js:418-420) reads the undeclared `inLocalTimeInterval`, which throws a ReferenceError. Such a call aborts after `stopAnimation` and after setting the type, range and direction: the callback is not installed and no frame is shown. The parameter record has no interval field, so this abort is not modelled.
- Trigonometry: `getTangent` and the angle in `moveLoop` are replaced by the two step lengths, given per tick. The NaN a move onto the current position produces (0/0) is not modelled.
- `Math.sqrt` is not modelled. The circle test compares squares.
- Collision.CircleCollisionReachesCentre: relates the test to the square root only when the centre distance is a whole number, because the model has no real square root.
- Collision: coordinates and sizes are whole pixels. The fractional positions an element passes through while moving are not modelled. Every circle length is doubled so the half-width radius stays whole.
- Motion.HorizontalArrives: arrival is proved for level moves with exact step lengths only. In general the step lengths come from the trigonometry above. Positions are exact reals, but the source computes with doubles, and rounding in `v ± steep` can delay the end test. A level move from 0 to 1.0 in steps of 0.1 ends one tick later in double arithmetic than the lemma says. Whole-number positions and steps, as in `Motion.HundredPixelsInEightTicks`, are exact in both.
- Motion.HorizontalStillMoving: the same rounding applies. In the source a level move's y step is `cos(atan(Infinity)) * steep`, about 6e-17 times the step, not 0, so the y position changes very slightly; the lemma assumes it stays exactly the same.
- Motion.MoveLoop: the end callback receives the element itself, and the source reads `movingTo` and the step check after that callback has run. If the callback calls `stop` or `moveTo` on the same element, the source can decide the step check differently. The model does not model the callback's effects on the element and uses `movingTo` from before the tick.
- Motion.Stop: the failure does not carry the `movingTo := false` written before the source throws. Before any `moveTo`, that flag is already false (`Motion.Valid`).
- An `undefined` start position or image count (the shooter is built with neither) is not modelled. Both are integers here.
- Bubble_Controller, the compressor, the random colour of a new bubble, `console.log`, `colorStrQueue`, `setNextColor`, `nextWord` and `isDone` belong to other code. `nextWord` is an event and `isDone` a parameter. Bubbles are identities.
- Keyboard listener registration and sound are not modelled. The commented-out hurry timers are not modelled.

=== FILE: animation.dfy ===
/** The sprite-sheet animator of AnimatedImage_Tool (`animate`, `animateFrame`,
    `stopAnimation`). The closure's private variables become one immutable
    record; each timer callback becomes one call of AnimateFrame. */
module Animation {
  import opened Wrappers

  /** The `type` of an animation. Any value other than "circle" or "loop",
      and a missing one, plays the sequence once. */
  datatype AnimationType = Once | Loop | Circle

  /** An end-of-animation callback, known only by identity. */
  type Callback = nat

  /** The constructor arguments that the animator reads after creation. */
  datatype SheetConfig = SheetConfig(startPosition: int, numberOfImages: int)

  /** The parameters of one `animate` call; `None` is an absent key. */
  datatype AnimateParams = AnimateParams(
    animationType: AnimationType,
    from: Option<int>,
    to: Option<int>,
    callback: Option<Callback>)

  /** The animator's state.
      - `handleHeld`: `animationLoop !== null`, a timer handle is stored;
      - `tickPending`: a call of `animateFrame` is scheduled.
      A handle stays stored after an animation ends by itself, so the two
      differ once a once-only animation has finished. */
  datatype Animator = Animator(
    currentPos: int,
    rightWay: bool,
    animationFrom: int,
    animationTo: int,
    animationType: AnimationType,
    callback: Option<Callback>,
    handleHeld: bool,
    tickPending: bool)

  /** One call of `animateFrame`: the state after it, the frame handed to
      `setAnimationImage`, and the callback invoked, if any. */
  datatype Frame = Frame(state: Animator, shown: int, fired: Option<Callback>)

  /** A scheduled tick never exists without a stored handle. */
  predicate Valid(a: Animator)
  {
    a.tickPending ==> a.handleHeld
  }

  /** The animator just after construction: no timer, frame at the start
      position, running forward towards the last image. */
  function Initial(cfg: SheetConfig): (a: Animator)
    ensures Valid(a) && !a.handleHeld && !a.tickPending
    ensures a.currentPos == cfg.startPosition && a.rightWay
    ensures a.animationTo == cfg.numberOfImages && a.callback.None?
  {
    Animator(cfg.startPosition, true, 0, cfg.numberOfImages, Once, None, false, false)
  }

  /** `animateFrame`: move one frame in the current direction, then act on
      reaching `animationTo` according to the animation type. */
  function AnimateFrame(a: Animator): (f: Frame)
    ensures f.shown == f.state.currentPos
    ensures var moved := if a.rightWay then a.currentPos + 1 else a.currentPos - 1;
      && (moved != a.animationTo ==> f.shown == moved && f.state.rightWay == a.rightWay)
      && (f.shown != moved ==> a.animationType == Loop && moved == a.animationTo
                               && f.shown == a.animationFrom)
      && (!f.state.tickPending <==> moved == a.animationTo && a.animationType == Once)
      && (f.state.rightWay != a.rightWay ==> a.animationType == Circle && !f.state.rightWay)
      && (moved == a.animationTo && a.animationType == Loop ==> f.shown == a.animationFrom)
      && (moved == a.animationTo && a.animationType == Circle ==> !f.state.rightWay)
    ensures f.fired.Some? ==> !f.state.tickPending && f.fired == a.callback
    ensures !f.state.tickPending && a.callback.Some? ==> f.fired == a.callback
    ensures f.state.animationFrom == a.animationFrom && f.state.animationTo == a.animationTo
    ensures f.state.animationType == a.animationType && f.state.callback == a.callback
    ensures f.state.handleHeld == (a.handleHeld || f.state.tickPending)
    ensures Valid(a) ==> Valid(f.state)
  {
    var pos := if a.rightWay then a.currentPos + 1 else a.currentPos - 1;
    var atEnd := pos == a.animationTo;
    var stop := atEnd && a.animationType == Once;
    var rightWay := if atEnd && a.animationType == Circle then false else a.rightWay;
    var shown := if atEnd && a.animationType == Loop then a.animationFrom else pos;
    var next := a.(currentPos := shown, rightWay := rightWay,
                   handleHeld := if stop then a.handleHeld else true,
                   tickPending := !stop);
    Frame(next, shown, if stop then a.callback else None)
  }

  /** `stopAnimation`: only when a handle is stored, cancel the timer, go
      back to the start image and forget the end callback. */
  function StopAnimation(a: Animator, cfg: SheetConfig): (r: Animator)
    ensures !r.handleHeld
    ensures Valid(a) ==> !r.tickPending
    ensures !a.handleHeld ==> r == a
    ensures a.handleHeld ==>
      r == a.(currentPos := cfg.startPosition, callback := None,
              handleHeld := false, tickPending := false)
  {
    if a.handleHeld then
      a.(currentPos := cfg.startPosition, callback := None,
         handleHeld := false, tickPending := false)
    else
      a
  }

  /** The start of `animate`: stop the running animation, then install the
      parameters. Start, end and direction get their defaults here. */
  function Configure(a: Animator, cfg: SheetConfig, p: AnimateParams): (c: Animator)
    ensures !c.handleHeld && (Valid(a) ==> !c.tickPending)
    ensures c.animationType == p.animationType
    ensures c.animationTo == (if p.to.Some? then p.to.value else cfg.numberOfImages)
    ensures p.from.Some? ==> c.currentPos == p.from.value && c.animationFrom == p.from.value
    ensures p.from.None? ==> c.currentPos == StopAnimation(a, cfg).currentPos
                             && c.animationFrom == a.animationFrom
    ensures c.rightWay <==> p.to.None? || (p.from.Some? && p.from.value < p.to.value)
    ensures c.callback == (if p.callback.Some? then p.callback else StopAnimation(a, cfg).callback)
  {
    var s := StopAnimation(a, cfg);
    var s := s.(animationType := p.animationType);
    var s := if p.from.Some? then s.(currentPos := p.from.value, animationFrom := p.from.value) else s;
    var s := s.(animationTo := if p.to.Some? then p.to.value else cfg.numberOfImages);
    // JavaScript compares `undefined < to` as false: without `from` and
    // with `to` the animation runs backwards.
    var s := s.(rightWay := p.to.None? || (p.from.Some? && p.from.value < p.to.value));
    if p.callback.Some? then s.(callback := p.callback) else s
  }

  /** `animate`: configure, then run the first frame at once. */
  function Animate(a: Animator, cfg: SheetConfig, p: AnimateParams): (f: Frame)
    ensures Valid(a) ==> Valid(f.state)
    ensures var c := Configure(a, cfg, p);
      var moved := if c.rightWay then c.currentPos + 1 else c.currentPos - 1;
      f.shown == (if p.animationType == Loop && moved == c.animationTo then c.animationFrom else moved)
  {
    AnimateFrame(Configure(a, cfg, p))
  }

  /** What a sequence of timer ticks produced: the final state, the frames
      shown in order, and the callbacks invoked in order. */
  datatype Trace = Trace(state: Animator, shown: seq<int>, fired: seq<Callback>)

  /** Up to `n` timer ticks. A tick happens only while one is scheduled. */
  function Run(a: Animator, n: nat): (t: Trace)
    ensures |t.shown| <= n && |t.fired| <= |t.shown|
    ensures !a.tickPending ==> t == Trace(a, [], [])
    ensures t.state.animationFrom == a.animationFrom && t.state.animationTo == a.animationTo
    ensures t.state.animationType == a.animationType && t.state.callback == a.callback
    ensures a.handleHeld ==> t.state.handleHeld
    ensures Valid(a) ==> Valid(t.state)
    decreases n
  {
    if n == 0 || !a.tickPending then
      Trace(a, [], [])
    else
      var f := AnimateFrame(a);
      var rest := Run(f.state, n - 1);
      Trace(rest.state, [f.shown] + rest.shown, ToSeq(f.fired) + rest.fired)
  }

  /** The frames `lo + 1`, ..., `hi` in increasing order. */
  function Ascending(lo: int, hi: int): (s: seq<int>)
    ensures |s| == if lo < hi then hi - lo else 0
    ensures forall i :: 0 <= i < |s| ==> s[i] == lo + 1 + i
    decreases hi - lo
  {
    if lo >= hi then [] else [lo + 1] + Ascending(lo + 1, hi)
  }

  /** The frames `hi - 1`, ..., `lo` in decreasing order. */
  function Descending(hi: int, lo: int): (s: seq<int>)
    ensures |s| == if lo < hi then hi - lo else 0
    ensures forall i :: 0 <= i < |s| ==> s[i] == hi - 1 - i
    decreases hi - lo
  {
    if hi <= lo then [] else [hi - 1] + Descending(hi - 1, lo)
  }

  /** One tick of a scheduled animation followed by `n` more. */
  lemma RunUnfold(a: Animator, n: nat)
    requires a.tickPending
    ensures var f := AnimateFrame(a); var rest := Run(f.state, n);
      Run(a, n + 1) == Trace(rest.state, [f.shown] + rest.shown, ToSeq(f.fired) + rest.fired)
  {
  }

  /** Running `m + n` ticks is running `m` ticks and then `n` more. */
  predicate SplitsAt(a: Animator, m: nat, n: nat)
  {
    var first := Run(a, m); var second := Run(first.state, n);
    Run(a, m + n) == Trace(second.state, first.shown + second.shown, first.fired + second.fired)
  }

  lemma {:induction false} RunSplit(a: Animator, m: nat, n: nat)
    ensures var first := Run(a, m); var second := Run(first.state, n);
      Run(a, m + n) == Trace(second.state, first.shown + second.shown, first.fired + second.fired)
    decreases m
  {
    if m == 0 {
      assert Run(a, 0) == Trace(a, [], []);
      assert [] + Run(a, n).shown == Run(a, n).shown;
      assert [] + Run(a, n).fired == Run(a, n).fired;
    } else if !a.tickPending {
      assert Run(a, m) == Trace(a, [], []) && Run(a, n) == Trace(a, [], []);
    } else {
      RunSplit(AnimateFrame(a).state, m - 1, n);
      assert SplitsAt(AnimateFrame(a).state, m - 1, n);
      RunSplitStep(a, m, n);
      assert SplitsAt(a, m, n);
    }
  }

  /** The inductive step of `RunSplit`: one more tick in front. */
  lemma RunSplitStep(a: Animator, m: nat, n: nat)
    requires a.tickPending && m >= 1 && SplitsAt(AnimateFrame(a).state, m - 1, n)
    ensures SplitsAt(a, m, n)
  {
    var f := AnimateFrame(a);
    var first := Run(f.state, m - 1);
    var second := Run(first.state, n);
    var whole := Run(f.state, m - 1 + n);
    assert whole == Trace(second.state, first.shown + second.shown, first.fired + second.fired);
    RunUnfold(a, m - 1);
    assert Run(a, m) == Trace(first.state, [f.shown] + first.shown, ToSeq(f.fired) + first.fired);
    RunUnfold(a, m - 1 + n);
    assert Run(a, m + n) == Trace(whole.state, [f.shown] + whole.shown, ToSeq(f.fired) + whole.fired);
    AppendAssociative([f.shown], first.shown, second.shown);
    AppendAssociative(ToSeq(f.fired), first.fired, second.fired);
  }

  lemma AppendAssociative<T>(x: seq<T>, y: seq<T>, z: seq<T>)
    ensures x + (y + z) == (x + y) + z
  {
  }

  /** A once-only animation running forward below its end shows every
      following frame up to the end, stops on it, and invokes its callback
      exactly once; it is still running on every earlier tick. */
  lemma {:induction false} OnceRunsToEnd(a: Animator)
    requires a.tickPending && a.animationType == Once && a.rightWay
    requires a.currentPos < a.animationTo
    ensures var t := Run(a, a.animationTo - a.currentPos);
      && !t.state.tickPending
      && t.state.currentPos == a.animationTo
      && t.shown == Ascending(a.currentPos, a.animationTo)
      && t.fired == ToSeq(a.callback)
    ensures forall k :: 0 <= k < a.animationTo - a.currentPos ==> Run(a, k).state.tickPending
    decreases a.animationTo - a.currentPos
  {
    var f := AnimateFrame(a);
    var n := a.animationTo - a.currentPos;
    RunUnfold(a, n - 1);
    if a.currentPos + 1 == a.animationTo {
      assert Run(f.state, 0) == Trace(f.state, [], []);
      assert Run(a, 0).state == a;
    } else {
      OnceRunsToEnd(f.state);
      assert f.fired == None;
      forall k | 0 < k < n
        ensures Run(a, k).state.tickPending
      {
        RunUnfold(a, k - 1);
      }
    }
  }

  /** `animate({from: f, to: t})` with `f < t` shows `f + 1`, ..., `t` (the
      first of them at once, the rest on `t - f - 1` timer ticks), then stops
      and invokes the callback in effect exactly once. */
  lemma AnimateOnceCompletes(a: Animator, cfg: SheetConfig, p: AnimateParams)
    requires p.animationType == Once && p.from.Some? && p.to.Some?
    requires p.from.value < p.to.value
    ensures var first := Animate(a, cfg, p);
      var rest := Run(first.state, p.to.value - p.from.value - 1);
      && [first.shown] + rest.shown == Ascending(p.from.value, p.to.value)
      && !rest.state.tickPending
      && rest.state.currentPos == p.to.value
      && ToSeq(first.fired) + rest.fired
         == ToSeq(if p.callback.Some? then p.callback else StopAnimation(a, cfg).callback)
    ensures var first := Animate(a, cfg, p);
      var rest := Run(first.state, p.to.value - p.from.value - 1);
      p.from.value + 1 < p.to.value ==>
        rest.state.handleHeld && StopAnimation(rest.state, cfg).currentPos == cfg.startPosition
  {
    var c := Configure(a, cfg, p);
    var first := AnimateFrame(c);
    var lo := p.from.value;
    var hi := p.to.value;
    assert first.shown == lo + 1;
    if lo + 1 == hi {
      assert Run(first.state, 0) == Trace(first.state, [], []);
    } else {
      assert first.state.tickPending && first.state.handleHeld;
      OnceRunsToEnd(first.state);
      assert [lo + 1] + Ascending(lo + 1, hi) == Ascending(lo, hi);
    }
  }

  /** A once-only animation running backward above its end shows every
      lower frame down to the end, stops on it, and invokes its callback
      exactly once; it is still running on every earlier tick. */
  lemma {:induction false} OnceRunsDownToEnd(a: Animator)
    requires a.tickPending && a.animationType == Once && !a.rightWay
    requires a.animationTo < a.currentPos
    ensures var t := Run(a, a.currentPos - a.animationTo);
      && !t.state.tickPending
      && t.state.currentPos == a.animationTo
      && t.shown == Descending(a.currentPos, a.animationTo)
      && t.fired == ToSeq(a.callback)
    ensures forall k :: 0 <= k < a.currentPos - a.animationTo ==> Run(a, k).state.tickPending
    decreases a.currentPos - a.animationTo
  {
    var f := AnimateFrame(a);
    var n := a.currentPos - a.animationTo;
    RunUnfold(a, n - 1);
    if a.currentPos - 1 == a.animationTo {
      assert Run(f.state, 0) == Trace(f.state, [], []);
      assert Run(a, 0).state == a;
    } else {
      OnceRunsDownToEnd(f.state);
      assert f.fired == None;
      forall k | 0 < k < n
        ensures Run(a, k).state.tickPending
      {
        RunUnfold(a, k - 1);
      }
    }
  }

  /** `animate({from: f, to: t})` with `f > t` runs backward: it shows
      `f - 1`, ..., `t`, then stops and invokes the callback in effect
      exactly once. */
  lemma AnimateOnceBackwardCompletes(a: Animator, cfg: SheetConfig, p: AnimateParams)
    requires p.animationType == Once && p.from.Some? && p.to.Some?
    requires p.to.value < p.from.value
    ensures var first := Animate(a, cfg, p);
      var rest := Run(first.state, p.from.value - p.to.value - 1);
      && [first.shown] + rest.shown == Descending(p.from.value, p.to.value)
      && !rest.state.tickPending
      && rest.state.currentPos == p.to.value
      && ToSeq(first.fired) + rest.fired
         == ToSeq(if p.callback.Some? then p.callback else StopAnimation(a, cfg).callback)
  {
    var c := Configure(a, cfg, p);
    var first := AnimateFrame(c);
    var hi := p.from.value;
    var lo := p.to.value;
    if hi - 1 == lo {
      assert Run(first.state, 0) == Trace(first.state, [], []);
    } else {
      OnceRunsDownToEnd(first.state);
      assert [hi - 1] + Descending(hi - 1, lo) == Descending(hi, lo);
    }
  }

  /** Ticks that never reach `animationTo` from above: every type of
      animation keeps moving backward one frame a tick, forever, without
      invoking a callback. */
  lemma {:induction false} BackwardBelowEndNeverStops(a: Animator, n: nat)
    requires a.tickPending && !a.rightWay && a.currentPos <= a.animationTo
    ensures var t := Run(a, n);
      && t.state.tickPending && !t.state.rightWay
      && t.state.currentPos == a.currentPos - n
      && t.fired == []
    decreases n
  {
    if n > 0 {
      var f := AnimateFrame(a);
      BackwardBelowEndNeverStops(f.state, n - 1);
    }
  }

  /** `animate({from: f, to: f})` never ends: the direction test `f < f`
      fails, so the frames run backward away from `to`. */
  lemma AnimateEqualBoundsNeverStops(a: Animator, cfg: SheetConfig, p: AnimateParams, n: nat)
    requires p.from.Some? && p.to == p.from
    ensures var first := Animate(a, cfg, p);
      var rest := Run(first.state, n);
      && first.fired.None?
      && rest.state.tickPending
      && rest.state.currentPos == p.from.value - 1 - n
      && rest.fired == []
  {
    var first := Animate(a, cfg, p);
    BackwardBelowEndNeverStops(first.state, n);
  }

  /** A circular animation running forward below its end reaches it, turns
      backward, and from then on runs backward forever: the source never
      turns it forward again, and it never invokes a callback. */
  lemma {:induction false} CircleTurnsOnce(a: Animator, n: nat)
    requires a.tickPending && a.animationType == Circle && a.rightWay
    requires a.currentPos < a.animationTo
    ensures var turn := Run(a, a.animationTo - a.currentPos);
      && turn.state.currentPos == a.animationTo && !turn.state.rightWay
      && turn.state.tickPending && turn.fired == []
    ensures var t := Run(a, a.animationTo - a.currentPos + n);
      && t.state.currentPos == a.animationTo - n && !t.state.rightWay
      && t.state.tickPending && t.fired == []
    decreases a.animationTo - a.currentPos
  {
    var f := AnimateFrame(a);
    var m := a.animationTo - a.currentPos;
    if a.currentPos + 1 < a.animationTo {
      CircleTurnsOnce(f.state, n);
    } else {
      assert Run(f.state, 0) == Trace(f.state, [], []);
    }
    var turn := Run(a, m);
    RunSplit(a, m, n);
    BackwardBelowEndNeverStops(turn.state, n);
  }

  /** One cycle of a looping animation running forward (`from < to`):
      `to - pos` ticks bring it back to exactly the state at `from`, without
      invoking a callback. */
  lemma {:induction false} LoopCycle(a: Animator)
    requires a.tickPending && a.handleHeld && a.animationType == Loop && a.rightWay
    requires a.animationFrom <= a.currentPos < a.animationTo
    ensures var t := Run(a, a.animationTo - a.currentPos);
      t.state == a.(currentPos := a.animationFrom) && t.fired == []
    decreases a.animationTo - a.currentPos
  {
    var f := AnimateFrame(a);
    if a.currentPos + 1 < a.animationTo {
      LoopCycle(f.state);
    }
  }

  /** One cycle of a looping animation running backward (`from > to`):
      `pos - to` ticks bring it back to exactly the state at `from`. */
  lemma {:induction false} LoopCycleBackward(a: Animator)
    requires a.tickPending && a.handleHeld && a.animationType == Loop && !a.rightWay
    requires a.animationTo < a.currentPos <= a.animationFrom
    ensures var t := Run(a, a.currentPos - a.animationTo);
      t.state == a.(currentPos := a.animationFrom) && t.fired == []
    decreases a.currentPos - a.animationTo
  {
    var f := AnimateFrame(a);
    if a.currentPos - 1 > a.animationTo {
      LoopCycleBackward(f.state);
    }
  }

  /** A looping animation standing on its first frame, in either direction. */
  predicate LoopStart(a: Animator)
  {
    && a.tickPending && a.handleHeld && a.animationType == Loop
    && a.currentPos == a.animationFrom
    && (if a.rightWay then a.animationFrom < a.animationTo else a.animationTo < a.animationFrom)
  }

  /** The number of ticks of one cycle of a looping animation. */
  function LoopLength(a: Animator): int
  {
    if a.rightWay then a.animationTo - a.animationFrom else a.animationFrom - a.animationTo
  }

  /** A looping animation is periodic in either direction: after `k` full
      cycles from its first frame it is back in the same state, having
      invoked no callback. */
  lemma {:induction false} LoopPeriodic(a: Animator, k: nat)
    requires LoopStart(a)
    ensures LoopLength(a) > 0
    ensures var t := Run(a, k * LoopLength(a));
      t.state == a && t.fired == []
    decreases k
  {
    var period := LoopLength(a);
    if k == 0 {
      assert k * period == 0;
      assert Run(a, 0) == Trace(a, [], []);
    } else {
      var rest := (k - 1) * period;
      assert k * period == period + rest;
      if a.rightWay {
        LoopCycle(a);
      } else {
        LoopCycleBackward(a);
      }
      var first := Run(a, period);
      assert first.state == a && first.fired == [];
      LoopPeriodic(a, k - 1);
      var second := Run(a, rest);
      assert second.state == a && second.fired == [];
      RunSplit(a, period, rest);
      assert Run(a, period + rest).state == a;
      assert Run(a, period + rest).fired == first.fired + second.fired;
    }
  }

  /** Looping and circular animations never end by themselves: every tick
      schedules another one, and no callback is ever invoked. */
  lemma {:induction false} RepeatingNeverEnds(a: Animator, n: nat)
    requires a.tickPending && a.animationType != Once
    ensures Run(a, n).state.tickPending && Run(a, n).fired == []
    decreases n
  {
    if n > 0 {
      RepeatingNeverEnds(AnimateFrame(a).state, n - 1);
    }
  }

  /** Stopping twice is stopping once, and no tick follows a stop. */
  lemma StopAnimationIdempotent(a: Animator, cfg: SheetConfig, n: nat)
    requires Valid(a)
    ensures StopAnimation(StopAnimation(a, cfg), cfg) == StopAnimation(a, cfg)
    ensures Run(StopAnimation(a, cfg), n) == Trace(StopAnimation(a, cfg), [], [])
  {
  }
}

=== FILE: collision.dfy ===
/** `checkCollision` of AnimatedImage_Tool: whether another element overlaps
    this one, tested either on the elements' boxes or on the circles drawn in
    them. */
module Collision {
  import opened Wrappers
  import opened Geometry

  /** What `getX`, `getY`, `getWidth` and `getHeight` report for one element:
      its top-left corner and its size in pixels. */
  datatype Box = Box(x: int, y: int, width: int, height: int)

  /** The `square` of `checkCollision`: this element's own box. */
  function BoundingSquare(b: Box): Square
  {
    Square(Point(b.x, b.y), Point(b.x + b.width, b.y + b.height))
  }

  /** The four corners of a box, in the order the source tests them:
      top-left, top-right, bottom-left, bottom-right. */
  function Corners(b: Box): (cs: seq<Point>)
    ensures |cs| == 4
  {
    [ Point(b.x, b.y), Point(b.x + b.width, b.y),
      Point(b.x, b.y + b.height), Point(b.x + b.width, b.y + b.height) ]
  }

  /** The rectangle branch: one of the other element's corners lies in this
      element's box. This element's own corners are never tested. */
  predicate RectangleCollision(self: Box, other: Box)
  {
    var square := BoundingSquare(self);
    var cs := Corners(other);
    PointInSquare(cs[0], square) || PointInSquare(cs[1], square)
    || PointInSquare(cs[2], square) || PointInSquare(cs[3], square)
  }

  /** Twice the centre the source computes, `(x - r, y - r)` with `r = width / 2`.
      Every length of the circle test is doubled so that the half-width radius
      stays a whole number. */
  function DoubledCentre(b: Box): Point
  {
    Point(2 * b.x - b.width, 2 * b.y - b.width)
  }

  /** The circle branch: the sum of the radii reaches the distance of the
      centres, compared on squares so that no square root is taken. With
      doubled lengths the radii sum to `self.width + other.width`. */
  predicate CircleCollision(self: Box, other: Box)
  {
    var radii := self.width + other.width;
    radii >= 0 && radii * radii >= DistanceSquared(DoubledCentre(self), DoubledCentre(other))
  }

  /** `checkCollision(other, type)`: the circle test when `type` is the
      string "circle", the rectangle test for any other or a missing type. */
  function CheckCollision(self: Box, other: Box, collisionType: Option<string>): (hit: bool)
    ensures collisionType == Some("circle") ==> (hit <==> CircleCollision(self, other))
    ensures collisionType != Some("circle") ==>
      (hit <==> exists i :: 0 <= i < 4 && PointInSquare(Corners(other)[i], BoundingSquare(self)))
  {
    if collisionType == Some("circle") then
      CircleCollision(self, other)
    else
      assert RectangleCollision(self, other) ==>
        exists i :: 0 <= i < 4 && PointInSquare(Corners(other)[i], BoundingSquare(self)) by {
        if PointInSquare(Corners(other)[0], BoundingSquare(self)) { assert 0 < 4; }
      }
      RectangleCollision(self, other)
  }

  predicate Within(v: int, lo: int, hi: int)
  {
    lo <= v <= hi
  }

  /** The rectangle test, axis by axis: one of the other box's vertical edges
      lies in this box's horizontal extent, and one of its horizontal edges in
      this box's vertical extent. */
  lemma RectangleCollisionByAxes(self: Box, other: Box)
    ensures RectangleCollision(self, other) <==>
      && (Within(other.x, self.x, self.x + self.width)
          || Within(other.x + other.width, self.x, self.x + self.width))
      && (Within(other.y, self.y, self.y + self.height)
          || Within(other.y + other.height, self.y, self.y + self.height))
  {
  }

  /** A box lying entirely inside this one collides with it. */
  lemma NestedBoxCollides(self: Box, other: Box)
    requires other.width >= 0 && other.height >= 0
    requires self.x <= other.x && other.x + other.width <= self.x + self.width
    requires self.y <= other.y && other.y + other.height <= self.y + self.height
    ensures CheckCollision(self, other, None)
  {
  }

  /** Boxes separated by a gap along either axis never collide. */
  lemma DisjointBoxesDoNotCollide(self: Box, other: Box)
    requires other.width >= 0 && other.height >= 0
    requires || other.x + other.width < self.x || self.x + self.width < other.x
             || other.y + other.height < self.y || self.y + self.height < other.y
    ensures !CheckCollision(self, other, None)
  {
  }

  /** The rectangle test is not symmetric: a large box finds a small box
      inside it, but the small box finds none of the large box's corners. */
  lemma RectangleCollisionOrderDependent()
    ensures CheckCollision(Box(0, 0, 100, 100), Box(10, 10, 5, 5), None)
    ensures !CheckCollision(Box(10, 10, 5, 5), Box(0, 0, 100, 100), None)
  {
    RectangleCollisionByAxes(Box(0, 0, 100, 100), Box(10, 10, 5, 5));
    RectangleCollisionByAxes(Box(10, 10, 5, 5), Box(0, 0, 100, 100));
  }

  /** The circle test is the source's comparison `r1 + r2 >= distance`:
      whenever the (doubled) centre distance is a whole number `d`, the
      elements collide exactly when the doubled radii reach `d`. */
  lemma CircleCollisionReachesCentre(self: Box, other: Box, d: nat)
    requires IsDistance(d, DoubledCentre(self), DoubledCentre(other))
    ensures CheckCollision(self, other, Some("circle")) <==> self.width + other.width >= d
  {
    var radii := self.width + other.width;
    if radii >= 0 {
      SquareMonotone(radii, d);
    }
  }

  /** Circles that just touch collide: equality counts as a hit. */
  lemma TouchingCirclesCollide()
    ensures CheckCollision(Box(0, 0, 20, 20), Box(20, 0, 20, 20), Some("circle"))
    ensures !CheckCollision(Box(0, 0, 20, 20), Box(21, 0, 20, 20), Some("circle"))
  {
    assert DistanceSquared(Point(-20, -20), Point(20, -20)) == 1600;
    assert DistanceSquared(Point(-20, -20), Point(22, -20)) == 1764;
  }

  /** The circle test is symmetric in its two elements. */
  lemma CircleCollisionSymmetric(self: Box, other: Box)
    ensures CheckCollision(self, other, Some("circle")) == CheckCollision(other, self, Some("circle"))
  {
    DistanceSymmetric(DoubledCentre(self), DoubledCentre(other));
  }

  /** The circle centred in the box, at `(x + r, y + r)`. */
  function DoubledBoxCentre(b: Box): Point
  {
    Point(2 * b.x + b.width, 2 * b.y + b.width)
  }

  predicate CentredCircleCollision(self: Box, other: Box)
  {
    var radii := self.width + other.width;
    radii >= 0 && radii * radii >= DistanceSquared(DoubledBoxCentre(self), DoubledBoxCentre(other))
  }

  /** The source places each centre at `(x - r, y - r)`, up and to the left
      of the box. For elements of one width the shift is the same for both
      and the result is that of circles centred in their boxes. */
  lemma CircleCollisionEqualWidths(self: Box, other: Box)
    requires self.width == other.width
    ensures CheckCollision(self, other, Some("circle")) == CentredCircleCollision(self, other)
  {
    var w := self.width;
    DistanceTranslation(DoubledCentre(self), DoubledCentre(other), 2 * w, 2 * w);
    assert DoubledBoxCentre(self) == Point(DoubledCentre(self).x + 2 * w, DoubledCentre(self).y + 2 * w);
    assert DoubledBoxCentre(other) == Point(DoubledCentre(other).x + 2 * w, DoubledCentre(other).y + 2 * w);
  }

  /** For elements of different widths the shifted centres can report a hit
      for circles that lie apart: a 20-pixel element at the origin and a
      2-pixel element touching its top-left corner from outside. */
  lemma CircleCollisionUnequalWidths()
    ensures CheckCollision(Box(0, 0, 20, 20), Box(-2, -2, 2, 2), Some("circle"))
    ensures !CentredCircleCollision(Box(0, 0, 20, 20), Box(-2, -2, 2, 2))
  {
    assert DistanceSquared(Point(-20, -20), Point(-6, -6)) == 392;
    assert DistanceSquared(Point(20, 20), Point(-2, -2)) == 968;
  }
}

=== FILE: geometry.dfy ===
/** The point, square and distance helpers of AnimatedImage_Tool. Coordinates
    are whole pixels, as `getX`, `getY`, `getWidth` and `getHeight` report them
    for an element at rest. */
module Geometry {

  datatype Point = Point(x: int, y: int)

  /** An axis-aligned square given by its top-left and bottom-right corners. */
  datatype Square = Square(topLeft: Point, bottRight: Point)

  function Abs(v: int): (r: nat)
    ensures r == v || r == -v
  {
    if v < 0 then -v else v
  }

  /** `checkPointInSquare`: containment with inclusive bounds on all four edges. */
  predicate PointInSquare(p: Point, sq: Square)
  {
    && p.x >= sq.topLeft.x
    && p.x <= sq.bottRight.x
    && p.y >= sq.topLeft.y
    && p.y <= sq.bottRight.y
  }

  /** The radicand of `getDistanceTwoPoints`: the sum of the squared distances
      along each axis. The source returns its square root; the model compares
      squares instead, and IsDistance says which whole number is that root. */
  function DistanceSquared(p: Point, q: Point): (d2: nat)
    ensures d2 == 0 <==> p == q
  {
    var distX := Abs(p.x - q.x);
    var distY := Abs(p.y - q.y);
    SquareSign(distX);
    SquareSign(distY);
    distX * distX + distY * distY
  }

  /** `d` is the value `Math.sqrt` returns for the squared distance of `p`
      and `q`, when that root is a whole number. */
  ghost predicate IsDistance(d: nat, p: Point, q: Point)
  {
    d * d == DistanceSquared(p, q)
  }

  lemma ProductPositive(u: int, v: int)
    requires u > 0 && v > 0
    ensures u * v > 0
  {
  }

  /** A square of a natural number is zero exactly at zero. */
  lemma SquareSign(v: nat)
    ensures v * v >= 0
    ensures v * v == 0 <==> v == 0
  {
    if v > 0 {
      ProductPositive(v, v);
    }
  }

  lemma ProductNonNegative(u: int, v: int)
    requires u >= 0 && v >= 0
    ensures u * v >= 0
  {
  }

  /** For natural numbers, comparing squares is comparing the values. */
  lemma SquareMonotone(a: int, b: nat)
    requires a >= 0
    ensures a >= b <==> a * a >= b * b
  {
    if a >= b {
      assert a * a - b * b == (a - b) * (a + b);
      ProductNonNegative(a - b, a + b);
    } else {
      assert b * b - a * a == (b - a) * (b + a);
      ProductPositive(b - a, b + a);
    }
  }

  /** The distance between two points does not depend on their order. */
  lemma DistanceSymmetric(p: Point, q: Point)
    ensures DistanceSquared(p, q) == DistanceSquared(q, p)
    ensures forall d :: IsDistance(d, p, q) <==> IsDistance(d, q, p)
  {
    assert Abs(p.x - q.x) == Abs(q.x - p.x);
    assert Abs(p.y - q.y) == Abs(q.y - p.y);
  }

  /** Moving both points by the same offset does not change their distance. */
  lemma DistanceTranslation(p: Point, q: Point, dx: int, dy: int)
    ensures DistanceSquared(Point(p.x + dx, p.y + dy), Point(q.x + dx, q.y + dy))
         == DistanceSquared(p, q)
  {
    assert (p.x + dx) - (q.x + dx) == p.x - q.x;
    assert (p.y + dy) - (q.y + dy) == p.y - q.y;
  }
}

=== FILE: motion.dfy ===
/** The stepped movement of AnimatedImage_Tool (`moveTo`, `moveLoop`, `stop`,
    `setPos`, `getX`, `getY`). The trigonometry that chooses each step is left
    abstract: a tick receives the two step lengths the source computes as
    `sin(ang) * steep` and `cos(ang) * steep`, and the model applies the
    source's signs, writes the position and runs the end test. */
module Motion {
  import opened Wrappers

  /** The `moveInfo` object of one `moveTo` call. The callbacks are known only
      by whether they are present. */
  datatype MoveInfo = MoveInfo(
    targetX: real,
    targetY: real,
    steep: real,
    hasEndCallback: bool,
    hasStepCheck: bool)

  /** The position and movement state of one element.
      - `info`: `moveInfo`, `None` before the first `moveTo`;
      - `movingTo`: the flag `moveTo` sets and `stop` clears;
      - `tickPending`: a call of `moveLoop` is scheduled. */
  datatype Mover = Mover(x: real, y: real, info: Option<MoveInfo>, movingTo: bool, tickPending: bool)

  /** The step lengths along each axis for one tick, before the signs. */
  datatype Displacement = Displacement(alongX: real, alongY: real)

  /** The callbacks one tick invokes: the end-of-movement callback and the
      per-step check. */
  datatype MoveEvent = EndCallback | StepCheck

  datatype MoveStep = MoveStep(mover: Mover, events: seq<MoveEvent>)

  /** `stop` before any `moveTo` reads a field of a null `moveInfo`. */
  datatype MotionError = NoMoveInfo

  /** A mover that has never moved holds no movement and no timer. */
  predicate Valid(m: Mover)
  {
    m.info.None? ==> !m.movingTo && !m.tickPending
  }

  /** A new element: at the origin, with no movement and no timer. */
  function Initial(): (m: Mover)
    ensures Valid(m) && !m.tickPending
    ensures m.info.None? && !m.movingTo
    ensures GetX(m) == 0.0 && GetY(m) == 0.0
  {
    Mover(0.0, 0.0, None, false, false)
  }

  /** `Math.abs` on positions, which are reals here; Geometry.Abs is the
      whole-pixel one used by the collision tests. */
  function AbsReal(v: real): (r: real)
    ensures r >= 0.0 && (r == v || r == -v)
  {
    if v < 0.0 then -v else v
  }

  /** `setPos`: the single writer of the position. */
  function SetPos(m: Mover, x: real, y: real): (r: Mover)
    ensures GetX(r) == x && GetY(r) == y
    ensures r.info == m.info && r.movingTo == m.movingTo && r.tickPending == m.tickPending
  {
    m.(x := x, y := y)
  }

  function GetX(m: Mover): real
  {
    m.x
  }

  function GetY(m: Mover): real
  {
    m.y
  }

  /** The last position written is the one read back. */
  lemma GetAfterSetPos(m: Mover, x: real, y: real, x': real, y': real)
    ensures GetX(SetPos(SetPos(m, x, y), x', y')) == x'
    ensures GetY(SetPos(SetPos(m, x, y), x', y')) == y'
    ensures SetPos(SetPos(m, x, y), x', y') == SetPos(m, x', y')
  {
  }

  /** One axis of the step: subtract when past the target, add otherwise
      (also when exactly on it). */
  function StepToward(v: real, target: real, amount: real): (r: real)
    ensures amount >= 0.0 && v > target ==> r <= v
    ensures amount >= 0.0 && v <= target ==> r >= v
  {
    if v > target then v - amount else v + amount
  }

  /** The end test of `moveLoop` on one axis: the remaining distance minus
      one step is at most one step. */
  predicate WithinReach(v: real, target: real, steep: real)
  {
    AbsReal(target - v) - steep <= steep
  }

  /** `moveLoop`: step, write the position, then either snap onto the target
      and end, or schedule the next tick; the per-step check runs in both
      cases while `movingTo` holds. */
  function MoveLoop(m: Mover, d: Displacement): (s: MoveStep)
    requires m.info.Some?
    ensures var info := m.info.value;
      var nx := StepToward(m.x, info.targetX, d.alongX);
      var ny := StepToward(m.y, info.targetY, d.alongY);
      && (!s.mover.tickPending <==> AbsReal(info.targetX - nx) <= 2.0 * info.steep
                                    && AbsReal(info.targetY - ny) <= 2.0 * info.steep)
      && (!s.mover.tickPending ==> GetX(s.mover) == info.targetX && GetY(s.mover) == info.targetY)
      && (s.mover.tickPending ==> GetX(s.mover) == nx && GetY(s.mover) == ny)
    ensures EndCallback in s.events <==> !s.mover.tickPending && m.info.value.hasEndCallback
    ensures StepCheck in s.events <==> m.info.value.hasStepCheck && m.movingTo
    ensures s.mover.info == m.info && s.mover.movingTo == m.movingTo
  {
    var info := m.info.value;
    var stepped := SetPos(m, StepToward(m.x, info.targetX, d.alongX),
                             StepToward(m.y, info.targetY, d.alongY));
    var arrived := WithinReach(GetX(stepped), info.targetX, info.steep)
                && WithinReach(GetY(stepped), info.targetY, info.steep);
    var after := if arrived then SetPos(stepped, info.targetX, info.targetY).(tickPending := false)
                 else stepped.(tickPending := true);
    var ended := if arrived && info.hasEndCallback then [EndCallback] else [];
    var checked := if info.hasStepCheck && m.movingTo then [StepCheck] else [];
    MoveStep(after, ended + checked)
  }

  /** `moveTo`: cancel the running movement, install the new one and take
      the first step at once. The interval between ticks is not modelled. */
  function MoveTo(m: Mover, targetX: real, targetY: real, hasEndCallback: bool, steep: real,
                  hasStepCheck: bool, first: Displacement): (s: MoveStep)
    ensures s.mover.info == Some(MoveInfo(targetX, targetY, steep, hasEndCallback, hasStepCheck))
    ensures s.mover.movingTo && Valid(s.mover)
    ensures hasStepCheck <==> StepCheck in s.events
  {
    var installed := m.(movingTo := true, tickPending := false,
                        info := Some(MoveInfo(targetX, targetY, steep, hasEndCallback, hasStepCheck)));
    MoveLoop(installed, first)
  }

  /** `stop`: clear `movingTo` and cancel the scheduled tick. Before any
      `moveTo` the source fails on the missing movement. */
  function Stop(m: Mover): (r: Result<Mover, MotionError>)
    ensures r.Failure? <==> m.info.None?
    ensures r.Success? ==> !r.value.movingTo && !r.value.tickPending
    ensures r.Success? ==> GetX(r.value) == GetX(m) && GetY(r.value) == GetY(m) && r.value.info == m.info
  {
    if m.info.None? then Failure(NoMoveInfo) else Success(m.(movingTo := false, tickPending := false))
  }

  /** Stopping is idempotent. */
  lemma StopIdempotent(m: Mover)
    requires m.info.Some?
    ensures Stop(m).Success? && Stop(Stop(m).value) == Stop(m)
  {
  }

  datatype MoveTrace = MoveTrace(mover: Mover, events: seq<MoveEvent>)

  /** Up to `n` timer ticks, each stepping by `d`, while one is scheduled. */
  function MoveRun(m: Mover, d: Displacement, n: nat): (t: MoveTrace)
    requires m.info.Some?
    ensures t.mover.info == m.info && t.mover.movingTo == m.movingTo
    ensures !m.tickPending ==> t == MoveTrace(m, [])
    decreases n
  {
    if n == 0 || !m.tickPending then
      MoveTrace(m, [])
    else
      var s := MoveLoop(m, d);
      var rest := MoveRun(s.mover, d, n - 1);
      MoveTrace(rest.mover, s.events + rest.events)
  }

  /** `k` steps of `steep` pixels laid end to end. */
  function Span(k: nat, steep: real): (r: real)
    ensures steep >= 0.0 ==> r >= 0.0
  {
    if k == 0 then 0.0 else steep + Span(k - 1, steep)
  }

  /** The straight horizontal move: the element is level with its target
      and each tick steps `steep` pixels along the x axis only. */
  predicate Horizontal(m: Mover, d: Displacement)
  {
    && m.info.Some?
    && m.info.value.steep > 0.0
    && m.y == m.info.value.targetY
    && d == Displacement(m.info.value.steep, 0.0)
  }

  /** While the target is farther than `n + 2` steps, `n` ticks of a
      horizontal move each close the distance by one step and end nothing. */
  lemma {:induction false} HorizontalStillMoving(m: Mover, d: Displacement, n: nat)
    requires Horizontal(m, d) && m.tickPending
    requires AbsReal(m.info.value.targetX - m.x) > Span(n + 2, m.info.value.steep)
    ensures var t := MoveRun(m, d, n);
      && t.mover.tickPending
      && t.mover.y == m.y
      && AbsReal(m.info.value.targetX - t.mover.x) == AbsReal(m.info.value.targetX - m.x) - Span(n, m.info.value.steep)
      && EndCallback !in t.events
    decreases n
  {
    if n > 0 {
      var info := m.info.value;
      var s := MoveLoop(m, d);
      assert Span(n + 2, info.steep) == info.steep + info.steep + info.steep + Span(n - 1, info.steep);
      assert s.mover.tickPending;
      HorizontalStillMoving(s.mover, d, n - 1);
    }
  }

  /** A horizontal move whose target is within `n + 2` steps arrives in at
      most `n` ticks: it ends exactly on the target, with no tick scheduled,
      and invokes the end callback once if there is one. */
  lemma {:induction false} HorizontalArrives(m: Mover, d: Displacement, n: nat)
    requires Horizontal(m, d) && m.tickPending && n >= 1
    requires AbsReal(m.info.value.targetX - m.x) <= Span(n + 2, m.info.value.steep)
    ensures var t := MoveRun(m, d, n);
      && !t.mover.tickPending
      && GetX(t.mover) == m.info.value.targetX && GetY(t.mover) == m.info.value.targetY
      && (EndCallback in t.events <==> m.info.value.hasEndCallback)
    decreases n
  {
    var info := m.info.value;
    var s := MoveLoop(m, d);
    assert Span(n + 2, info.steep) == info.steep + info.steep + Span(n, info.steep);
    if s.mover.tickPending {
      assert AbsReal(info.targetX - m.x) > 3.0 * info.steep;
      assert n >= 2;
      HorizontalArrives(s.mover, d, n - 1);
    } else {
      assert MoveRun(s.mover, d, n - 1) == MoveTrace(s.mover, []);
    }
  }

  /** Moving an element at (0, 0) to (100, 0) in steps of 10 pixels: the
      first step happens inside `moveTo`, the element is still moving after
      6 more ticks and sits exactly on the target after 7, because the end
      test fires once the target is within two steps. */
  lemma HundredPixelsInEightTicks(hasEndCallback: bool)
    ensures var start := MoveTo(Initial(), 100.0, 0.0, hasEndCallback, 10.0, false, Displacement(10.0, 0.0));
      && start.mover.tickPending && start.mover.x == 10.0
      && MoveRun(start.mover, Displacement(10.0, 0.0), 6).mover.tickPending
      && !MoveRun(start.mover, Displacement(10.0, 0.0), 7).mover.tickPending
      && GetX(MoveRun(start.mover, Displacement(10.0, 0.0), 7).mover) == 100.0
      && GetY(MoveRun(start.mover, Displacement(10.0, 0.0), 7).mover) == 0.0
  {
    var start := MoveTo(Initial(), 100.0, 0.0, hasEndCallback, 10.0, false, Displacement(10.0, 0.0));
    var d := Displacement(10.0, 0.0);
    assert Span(8, 10.0) == 80.0;
    assert Span(9, 10.0) == 90.0;
    assert Span(6, 10.0) == 60.0;
    HorizontalStillMoving(start.mover, d, 6);
    HorizontalArrives(start.mover, d, 7);
  }
}

=== FILE: player.dfy ===
/** The player controller (Player_Controller): the penguin's left/right/centre
    movement, the shooter's rotation, shooting, the end-of-game latch and
    the colour names of bubble types. Calls on the penguin, the shooter and
    the bubbles are recorded as events; the `config.player` and
    `config.shooter` values are a parameter. */
module Player {
  import opened Wrappers
  import opened Animation

  /** `currentMovement`: `null`, 'left' or 'right'. */
  datatype Movement = Still | Left | Right

  /** A bubble, known only by identity. */
  type Bubble = nat

  datatype PlayerConfig = PlayerConfig(
    leftAnimationFrom: int,
    leftAnimationTo: int,
    rightAnimationFrom: int,
    rightAnimationTo: int,
    shootAnimationFrom: int,
    shootAnimationTo: int,
    winnerAnimationFrom: int,
    winnerAnimationTo: int,
    loserAnimationFrom: int,
    loserAnimationTo: int,
    maxRotationDegLeft: int,
    maxRotationDegRight: int,
    triggerKey: int,
    secondTriggerKey: int,
    leftKey: int,
    rightKey: int)

  /** The controller's state.
      - `rotationActive`: the `rotateObserver` timer is armed;
      - `shooterBall`, `chamberBubble`: the loaded bubble and the next one. */
  datatype Player = Player(
    movement: Movement,
    shooterRotatedDeg: int,
    stopped: bool,
    rotationActive: bool,
    shooterBall: Option<Bubble>,
    chamberBubble: Option<Bubble>)

  /** What the controller asks of its collaborators. */
  datatype Event =
    | PenguinAnimate(params: AnimateParams)  // penguin.animate(params)
    | PenguinClass(name: string)             // penguin.setClass(name)
    | ShooterRotate(deg: int)                // shooter.rotate(deg)
    | ShootBall(ball: Bubble, deg: int)      // shooterBall.shoot(deg, compressor)
    | NewChamberBubble(ball: Bubble)         // a new Bubble_Controller enters the chamber
    | SendToShooter(ball: Bubble)            // the chamber bubble moves up to the shooter
    | ClearTimers                            // the rotation, hurry and alert timeouts are cleared
    | NextWord                               // the page's `nextWord()` is called

  datatype Outcome = Outcome(player: Player, events: seq<Event>)

  function PlayOnce(from: int, to: Option<int>): AnimateParams
  {
    AnimateParams(Once, Some(from), to, None)
  }

  /** `moveToLeft`: turn left and start the penguin's left animation, unless
      already turning left. */
  function MoveToLeft(p: Player, cfg: PlayerConfig): (r: Outcome)
    ensures r.player == p.(movement := Left)
    ensures r.events == (if p.movement == Left then []
                         else [PenguinAnimate(PlayOnce(cfg.leftAnimationFrom, Some(cfg.leftAnimationTo)))])
  {
    if p.movement != Left then
      Outcome(p.(movement := Left),
              [PenguinAnimate(PlayOnce(cfg.leftAnimationFrom, Some(cfg.leftAnimationTo)))])
    else
      Outcome(p, [])
  }

  /** `moveToRight`: as MoveToLeft; the right animation has no end frame, so
      the penguin animates up to its last image. */
  function MoveToRight(p: Player, cfg: PlayerConfig): (r: Outcome)
    ensures r.player == p.(movement := Right)
    ensures r.events == (if p.movement == Right then []
                         else [PenguinAnimate(PlayOnce(cfg.rightAnimationFrom, None))])
  {
    if p.movement != Right then
      Outcome(p.(movement := Right), [PenguinAnimate(PlayOnce(cfg.rightAnimationFrom, None))])
    else
      Outcome(p, [])
  }

  /** Turning to the same side twice is turning once. */
  lemma MoveToSideIdempotent(p: Player, cfg: PlayerConfig)
    ensures MoveToLeft(MoveToLeft(p, cfg).player, cfg) == Outcome(MoveToLeft(p, cfg).player, [])
    ensures MoveToRight(MoveToRight(p, cfg).player, cfg) == Outcome(MoveToRight(p, cfg).player, [])
  {
  }

  /** `moveToCenter`: play the side animation back to the main image and stop
      turning. */
  function MoveToCenter(p: Player, cfg: PlayerConfig): (r: Outcome)
    ensures r.player == p.(movement := Still)
    ensures |r.events| <= 1
    ensures |r.events| == 1 <==> p.movement != Still
    ensures p.movement == Left ==>
      r.events == [PenguinAnimate(PlayOnce(cfg.leftAnimationTo, Some(cfg.leftAnimationFrom)))]
    ensures p.movement == Right ==>
      r.events == [PenguinAnimate(PlayOnce(cfg.rightAnimationTo, Some(cfg.rightAnimationFrom - 1)))]
  {
    var fromRight := if p.movement == Right
      then [PenguinAnimate(PlayOnce(cfg.rightAnimationTo, Some(cfg.rightAnimationFrom - 1)))] else [];
    var fromLeft := if p.movement == Left
      then [PenguinAnimate(PlayOnce(cfg.leftAnimationTo, Some(cfg.leftAnimationFrom)))] else [];
    assert |fromRight + fromLeft| == |fromRight| + |fromLeft|;
    assert p.movement != Still ==> |fromRight| + |fromLeft| == 1;
    Outcome(p.(movement := Still), fromRight + fromLeft)
  }

  /** One tick of `rotateObserver`: turn the shooter one degree towards the
      current side unless it is at that side's limit, and re-arm the timer. */
  function RotateObserver(p: Player, cfg: PlayerConfig): (r: Outcome)
    ensures r.player.rotationActive
    ensures r.player == p.(shooterRotatedDeg := r.player.shooterRotatedDeg, rotationActive := true)
    ensures r.player.shooterRotatedDeg - p.shooterRotatedDeg
      == (if p.movement == Left && p.shooterRotatedDeg != cfg.maxRotationDegLeft then -1
          else if p.movement == Right && p.shooterRotatedDeg != cfg.maxRotationDegRight then 1
          else 0)
    ensures r.events == (if r.player.shooterRotatedDeg == p.shooterRotatedDeg then []
                         else [ShooterRotate(r.player.shooterRotatedDeg)])
  {
    var deg :=
      if p.movement == Left && p.shooterRotatedDeg != cfg.maxRotationDegLeft then p.shooterRotatedDeg - 1
      else if p.movement == Right && p.shooterRotatedDeg != cfg.maxRotationDegRight then p.shooterRotatedDeg + 1
      else p.shooterRotatedDeg;
    Outcome(p.(shooterRotatedDeg := deg, rotationActive := true),
            if deg == p.shooterRotatedDeg then [] else [ShooterRotate(deg)])
  }

  /** The shooter's angle lies between its two limits. */
  predicate RotationInBounds(p: Player, cfg: PlayerConfig)
  {
    cfg.maxRotationDegLeft <= p.shooterRotatedDeg <= cfg.maxRotationDegRight
  }

  /** A rotation tick keeps the angle between the limits. */
  lemma RotateObserverInBounds(p: Player, cfg: PlayerConfig)
    requires RotationInBounds(p, cfg)
    ensures RotationInBounds(RotateObserver(p, cfg).player, cfg)
  {
  }

  /** Back to the centre from the right, the penguin's animator plays the
      right-hand frames backward once, `rightAnimationTo - 1` down to
      `rightAnimationFrom - 1`, and stops there. */
  lemma CentreFromRightPlaysBack(p: Player, cfg: PlayerConfig, a: Animator, sheet: SheetConfig)
    requires p.movement == Right && cfg.rightAnimationFrom <= cfg.rightAnimationTo
    ensures var e := MoveToCenter(p, cfg).events;
      && |e| == 1 && e[0].PenguinAnimate? && e[0].params.animationType == Once
      && var first := Animate(a, sheet, e[0].params);
         var rest := Animation.Run(first.state, cfg.rightAnimationTo - cfg.rightAnimationFrom);
         && [first.shown] + rest.shown == Descending(cfg.rightAnimationTo, cfg.rightAnimationFrom - 1)
         && !rest.state.tickPending && rest.state.currentPos == cfg.rightAnimationFrom - 1
  {
    var params := PlayOnce(cfg.rightAnimationTo, Some(cfg.rightAnimationFrom - 1));
    assert MoveToCenter(p, cfg).events == [PenguinAnimate(params)];
    AnimateOnceBackwardCompletes(a, sheet, params);
  }

  /** Back to the centre from the left, the penguin's animator plays the
      left-hand frames backward once, `leftAnimationTo - 1` down to
      `leftAnimationFrom`, and stops there. */
  lemma CentreFromLeftPlaysBack(p: Player, cfg: PlayerConfig, a: Animator, sheet: SheetConfig)
    requires p.movement == Left && cfg.leftAnimationFrom < cfg.leftAnimationTo
    ensures var e := MoveToCenter(p, cfg).events;
      && |e| == 1 && e[0].PenguinAnimate? && e[0].params.animationType == Once
      && var first := Animate(a, sheet, e[0].params);
         var rest := Animation.Run(first.state, cfg.leftAnimationTo - cfg.leftAnimationFrom - 1);
         && [first.shown] + rest.shown == Descending(cfg.leftAnimationTo, cfg.leftAnimationFrom)
         && !rest.state.tickPending && rest.state.currentPos == cfg.leftAnimationFrom
  {
    var params := PlayOnce(cfg.leftAnimationTo, Some(cfg.leftAnimationFrom));
    assert MoveToCenter(p, cfg).events == [PenguinAnimate(params)];
    AnimateOnceBackwardCompletes(a, sheet, params);
  }

  /** `addNewBubbleToChamber`: the chamber bubble becomes the loaded one and
      a new bubble enters the chamber. Its random colour is not modelled. */
  function AddNewBubbleToChamber(p: Player, newBubble: Bubble): (r: Outcome)
    ensures r.player == p.(shooterBall := p.chamberBubble, chamberBubble := Some(newBubble))
    ensures r.events == [NewChamberBubble(newBubble)]
  {
    Outcome(p.(shooterBall := p.chamberBubble, chamberBubble := Some(newBubble)), [NewChamberBubble(newBubble)])
  }

  /** `chargeChamberBall`: fill an empty chamber, then send the chamber bubble
      up to the shooter; its arrival is the input BubbleArrived. */
  function ChargeChamberBall(p: Player, newBubble: Bubble): (r: Outcome)
    ensures r.player.chamberBubble.Some?
    ensures p.chamberBubble.Some? ==> r.player == p && r.events == [SendToShooter(p.chamberBubble.value)]
    ensures p.chamberBubble.None? ==>
      r.player == p.(shooterBall := None, chamberBubble := Some(newBubble))
      && r.events == [NewChamberBubble(newBubble), SendToShooter(newBubble)]
  {
    var charged := if p.chamberBubble.None? then AddNewBubbleToChamber(p, newBubble) else Outcome(p, []);
    Outcome(charged.player, charged.events + [SendToShooter(charged.player.chamberBubble.value)])
  }

  /** `shoot`: charge the chamber, fire the loaded bubble if there is one at
      the current angle, then empty the shooter, play the penguin's shooting
      animation and stop turning. */
  function Shoot(p: Player, cfg: PlayerConfig, newBubble: Bubble): (r: Outcome)
    ensures r.player.shooterBall.None? && r.player.movement == Still
    ensures r.player.shooterRotatedDeg == p.shooterRotatedDeg && r.player.stopped == p.stopped
    ensures r.player.rotationActive == p.rotationActive
    ensures var loaded := ChargeChamberBall(p, newBubble).player.shooterBall;
      (exists i :: 0 <= i < |r.events| && r.events[i].ShootBall?)
      <==> loaded.Some?
    ensures ChargeChamberBall(p, newBubble).player.shooterBall.Some? ==>
      ShootBall(ChargeChamberBall(p, newBubble).player.shooterBall.value, p.shooterRotatedDeg) in r.events
    ensures |r.events| >= 1 && r.events[|r.events| - 1]
      == PenguinAnimate(PlayOnce(cfg.shootAnimationFrom, Some(cfg.shootAnimationTo)))
  {
    var charged := ChargeChamberBall(p, newBubble);
    var q := charged.player;
    var fired := if q.shooterBall.Some? then [ShootBall(q.shooterBall.value, q.shooterRotatedDeg)] else [];
    var events := charged.events + fired
      + [PenguinAnimate(PlayOnce(cfg.shootAnimationFrom, Some(cfg.shootAnimationTo)))];
    assert fired != [] ==> events[|charged.events|] == fired[0];
    Outcome(q.(shooterBall := None, movement := Still), events)
  }

  /** The chamber round trip: a shot sends the chamber bubble up to the
      shooter; until it arrives another shot fires nothing; once it has
      arrived it is the bubble the next shot fires, at the current angle. */
  lemma ChamberBubbleIsFiredNext(p: Player, cfg: PlayerConfig, b1: Bubble, b2: Bubble, b3: Bubble)
    requires p.chamberBubble.Some?
    ensures var sent := Shoot(p, cfg, b1);
      var early := Shoot(sent.player, cfg, b2);
      var arrived := AddNewBubbleToChamber(sent.player, b2);
      var shot := Shoot(arrived.player, cfg, b3);
      && SendToShooter(p.chamberBubble.value) in sent.events
      && (forall i :: 0 <= i < |early.events| ==> !early.events[i].ShootBall?)
      && arrived.player.shooterBall == p.chamberBubble
      && arrived.player.chamberBubble == Some(b2)
      && ShootBall(p.chamberBubble.value, p.shooterRotatedDeg) in shot.events
  {
  }

  /** `win`: the first end-of-game call stops the game, clears the timers and
      loops the penguin's winner animation; later calls do nothing. */
  function Win(p: Player, cfg: PlayerConfig): (r: Outcome)
    ensures r.player.stopped
    ensures p.stopped ==> r == Outcome(p, [])
    ensures !p.stopped ==>
      && r.player == p.(stopped := true, rotationActive := false)
      && r.events == [ClearTimers, PenguinClass("winner"),
                      PenguinAnimate(AnimateParams(Loop, Some(cfg.winnerAnimationFrom),
                                                   Some(cfg.winnerAnimationTo), None))]
  {
    if !p.stopped then
      Outcome(p.(stopped := true, rotationActive := false),
              [ClearTimers, PenguinClass("winner"),
               PenguinAnimate(AnimateParams(Loop, Some(cfg.winnerAnimationFrom),
                                            Some(cfg.winnerAnimationTo), None))])
    else
      Outcome(p, [])
  }

  /** `gameOver`: as Win, with the loser animation played once. */
  function GameOver(p: Player, cfg: PlayerConfig): (r: Outcome)
    ensures r.player.stopped
    ensures p.stopped ==> r == Outcome(p, [])
    ensures !p.stopped ==>
      && r.player == p.(stopped := true, rotationActive := false)
      && r.events == [ClearTimers, PenguinClass("looser"),
                      PenguinAnimate(PlayOnce(cfg.loserAnimationFrom, Some(cfg.loserAnimationTo)))]
  {
    if !p.stopped then
      Outcome(p.(stopped := true, rotationActive := false),
              [ClearTimers, PenguinClass("looser"),
               PenguinAnimate(PlayOnce(cfg.loserAnimationFrom, Some(cfg.loserAnimationTo)))])
    else
      Outcome(p, [])
  }

  /** The `keydown` listener: ignored once the game is stopped or the page
      says it is done; otherwise a trigger key shoots and the left and right
      keys turn. A key matching several settings takes the first case. */
  function KeyDown(p: Player, cfg: PlayerConfig, keyCode: int, isDone: bool, newBubble: Bubble): (r: Outcome)
    ensures p.stopped || isDone ==> r == Outcome(p, [])
    ensures r.player.stopped == p.stopped
    ensures r.player.rotationActive == p.rotationActive
    ensures r.player.shooterRotatedDeg == p.shooterRotatedDeg
  {
    if p.stopped || isDone then
      Outcome(p, [])
    else if keyCode == cfg.triggerKey || keyCode == cfg.secondTriggerKey then
      var shot := Shoot(p, cfg, newBubble);
      Outcome(shot.player, [NextWord] + shot.events)
    else if keyCode == cfg.leftKey then
      MoveToLeft(p, cfg)
    else if keyCode == cfg.rightKey then
      MoveToRight(p, cfg)
    else
      Outcome(p, [])
  }

  /** What reaches the controller: key presses and releases, a tick of the
      rotation timer, a bubble arriving at the shooter, and the two
      end-of-game calls. */
  datatype Input =
    | KeyPress(keyCode: int, isDone: bool, newBubble: Bubble)
    | KeyRelease
    | RotationTick
    | BubbleArrived(newBubble: Bubble)
    | WinCall
    | GameOverCall

  /** One input. A rotation tick arrives only while its timer is armed; the
      `keyup` listener has no stopped test. */
  function Step(p: Player, cfg: PlayerConfig, input: Input): (r: Outcome)
    ensures input.RotationTick? && !p.rotationActive ==> r == Outcome(p, [])
    ensures input.KeyRelease? ==>
      r.player == p.(movement := Still) && (|r.events| == 1 <==> p.movement != Still)
    ensures input.BubbleArrived? ==> r.player.shooterBall == p.chamberBubble
  {
    match input
    case KeyPress(code, isDone, newBubble) => KeyDown(p, cfg, code, isDone, newBubble)
    case KeyRelease => MoveToCenter(p, cfg)
    case RotationTick => if p.rotationActive then RotateObserver(p, cfg) else Outcome(p, [])
    case BubbleArrived(newBubble) => AddNewBubbleToChamber(p, newBubble)
    case WinCall => Win(p, cfg)
    case GameOverCall => GameOver(p, cfg)
  }

  /** A sequence of inputs, with the events in order. */
  function Run(p: Player, cfg: PlayerConfig, inputs: seq<Input>): (r: Outcome)
    ensures inputs == [] ==> r == Outcome(p, [])
    decreases |inputs|
  {
    if inputs == [] then
      Outcome(p, [])
    else
      var first := Step(p, cfg, inputs[0]);
      var rest := Run(first.player, cfg, inputs[1..]);
      Outcome(rest.player, first.events + rest.events)
  }

  /** The controller after `init`: no turn, shooter upright, the first bubble
      on its way from the chamber to the shooter, the rotation timer armed. */
  function Init(cfg: PlayerConfig, newBubble: Bubble): (r: Outcome)
    ensures r.player.shooterRotatedDeg == 0 && !r.player.stopped && r.player.rotationActive
    ensures r.player.movement == Still && r.player.shooterBall.None?
    ensures r.player.chamberBubble == Some(newBubble)
    ensures r.events == [NewChamberBubble(newBubble), SendToShooter(newBubble)]
  {
    var start := Player(Still, 0, false, false, None, None);
    var charged := ChargeChamberBall(start, newBubble);
    var observed := RotateObserver(charged.player, cfg);
    Outcome(observed.player, charged.events + observed.events)
  }

  /** No input moves the shooter's angle outside its limits. */
  lemma {:induction false} RunKeepsRotationInBounds(p: Player, cfg: PlayerConfig, inputs: seq<Input>)
    requires RotationInBounds(p, cfg)
    ensures RotationInBounds(Run(p, cfg, inputs).player, cfg)
    decreases |inputs|
  {
    if inputs != [] {
      var first := Step(p, cfg, inputs[0]);
      if inputs[0] == RotationTick && p.rotationActive {
        RotateObserverInBounds(p, cfg);
      }
      assert RotationInBounds(first.player, cfg);
      RunKeepsRotationInBounds(first.player, cfg, inputs[1..]);
    }
  }

  /** From `init`, with limits on either side of upright, the shooter's angle
      stays within its limits whatever the player does. */
  lemma RotationAlwaysInBounds(cfg: PlayerConfig, newBubble: Bubble, inputs: seq<Input>)
    requires cfg.maxRotationDegLeft <= 0 <= cfg.maxRotationDegRight
    ensures var start := Init(cfg, newBubble).player;
      RotationInBounds(Run(start, cfg, inputs).player, cfg)
  {
    RunKeepsRotationInBounds(Init(cfg, newBubble).player, cfg, inputs);
  }

  /** Once stopped, the game stays stopped, and a cleared rotation timer is
      never armed again. */
  lemma {:induction false} StoppedIsFinal(p: Player, cfg: PlayerConfig, inputs: seq<Input>)
    requires p.stopped
    ensures Run(p, cfg, inputs).player.stopped
    ensures !Run(p, cfg, inputs).player.rotationActive || p.rotationActive
    decreases |inputs|
  {
    if inputs != [] {
      var first := Step(p, cfg, inputs[0]);
      StoppedIsFinal(first.player, cfg, inputs[1..]);
    }
  }

  /** The penguin's winner animation, once requested, never ends by itself
      and never invokes an end callback. */
  lemma WinnerAnimationNeverEnds(p: Player, cfg: PlayerConfig, penguin: Animator,
                                 sheet: SheetConfig, n: nat)
    requires !p.stopped
    ensures var request := Win(p, cfg).events[2].params;
      var first := Animate(penguin, sheet, request);
      && first.fired.None?
      && Animation.Run(first.state, n).state.tickPending
      && Animation.Run(first.state, n).fired == []
  {
    var request := Win(p, cfg).events[2].params;
    var first := Animate(penguin, sheet, request);
    RepeatingNeverEnds(first.state, n);
  }

  /** An end-of-game call: `win` or `gameOver`. */
  predicate IsEndCall(input: Input)
  {
    input == WinCall || input == GameOverCall
  }

  /** Only the first of a sequence of `win`/`gameOver` calls has an effect:
      the whole sequence does what its first call does. */
  lemma {:induction false} EndCallsLatch(p: Player, cfg: PlayerConfig, calls: seq<Input>)
    requires calls != [] && forall i :: 0 <= i < |calls| ==> IsEndCall(calls[i])
    ensures Run(p, cfg, calls) == Step(p, cfg, calls[0])
    decreases |calls|
  {
    var first := Step(p, cfg, calls[0]);
    assert first.player.stopped;
    StoppedEndCallsDoNothing(first.player, cfg, calls[1..]);
  }

  lemma {:induction false} StoppedEndCallsDoNothing(p: Player, cfg: PlayerConfig, calls: seq<Input>)
    requires p.stopped && forall i :: 0 <= i < |calls| ==> IsEndCall(calls[i])
    ensures Run(p, cfg, calls) == Outcome(p, [])
    decreases |calls|
  {
    if calls != [] {
      assert IsEndCall(calls[0]);
      StoppedEndCallsDoNothing(p, cfg, calls[1..]);
    }
  }

  /** The `keyup` listener is not latched: after `win` or `gameOver`,
      releasing a key held when the game stopped still requests that side's
      return animation, replacing the end-of-game one; with no turn in
      progress it requests nothing. */
  lemma KeyReleaseAfterEnd(p: Player, cfg: PlayerConfig, endCall: Input)
    requires !p.stopped && IsEndCall(endCall)
    ensures var ended := Step(p, cfg, endCall).player;
      var r := Step(ended, cfg, KeyRelease);
      && ended.stopped && r.player.stopped
      && (p.movement == Still ==> r.events == [])
      && (p.movement == Left ==>
            r.events == [PenguinAnimate(PlayOnce(cfg.leftAnimationTo, Some(cfg.leftAnimationFrom)))])
      && (p.movement == Right ==>
            r.events == [PenguinAnimate(PlayOnce(cfg.rightAnimationTo, Some(cfg.rightAnimationFrom - 1)))])
  {
  }

  /** The colour names, in the order of the bubble type codes. */
  const ColourNames: seq<string> :=
    ["BLACK", "BLUE", "GREEN", "ORANGE", "PURPLE", "RED", "WHITE", "YELLOW"]

  /** `getColorFromType`: the name of a bubble type, `undefined` outside 0..7. */
  function ColorFromType(colorCode: int): (r: Option<string>)
    ensures r.Some? <==> 0 <= colorCode < |ColourNames|
    ensures r.Some? ==> r.value == ColourNames[colorCode]
  {
    if colorCode == 0 then Some("BLACK")
    else if colorCode == 1 then Some("BLUE")
    else if colorCode == 2 then Some("GREEN")
    else if colorCode == 3 then Some("ORANGE")
    else if colorCode == 4 then Some("PURPLE")
    else if colorCode == 5 then Some("RED")
    else if colorCode == 6 then Some("WHITE")
    else if colorCode == 7 then Some("YELLOW")
    else None
  }

  /** Different bubble types have different colour names. */
  lemma ColorFromTypeInjective(a: int, b: int)
    requires ColorFromType(a).Some? && ColorFromType(a) == ColorFromType(b)
    ensures a == b
  {
  }
}

=== FILE: wrappers.dfy ===
/** Optional values and results with an error, standing in for JavaScript's
    `null` / `undefined` and for the exceptions the game code can raise. */
module Wrappers {

  /** `None` plays the part of `null` or `undefined`. */
  datatype Option<+T> = None | Some(value: T)

  /** The outcome of an operation that can fail. */
  datatype Result<+T, +E> = Success(value: T) | Failure(error: E)

  /** The zero- or one-element sequence holding an optional value. */
  function ToSeq<T>(o: Option<T>): (s: seq<T>)
    ensures |s| <= 1
    ensures o.Some? <==> |s| == 1
    ensures o.Some? ==> s[0] == o.value
  {
    match o
    case None => []
    case Some(v) => [v]
  }
}
